=== FILE: README.md ===
# Auto-direct: worklist and send-orchestration core in Dafny

Auto-direct sends templated Instagram direct messages to users listed in
category-tagged spreadsheets. This project models the pure logic under its
plumbing, in three parts.

- **Worklist builder** (`CsvProcessor`, from `src/utils/csv_processor.py`).
  Each category file is cut down to `username` and `followersCount`. Its rows
  are tagged with the category and the status `pending`. A file that cannot be
  read, or that lacks either column, is skipped. The surviving tables are
  concatenated and sorted by follower count, largest first, with missing
  counts last. They are returned with the columns
  `username, category, status, followersCount`.
- **Worklist loader** (`UserLoader`, from `src/data/user_loader.py`).
  `load_users` checks the required columns and keeps the rows whose status,
  lower-cased, is `pending`. `update_user_status` rewrites the status of every
  row whose username equals the given one. `get_user_count` counts rows per status value.
- **Send orchestrator** (`DmSender`, from `src/services/dm_sender.py`).
  `_get_template` picks a template by name, or any template of the category.
  `_format_message` runs the `str.replace` loop over the declared variables.
  `_log_attempt` builds the log record. `send_message` ties them together:
  one send and one log append, or neither. `SendAll` models the per-user
  loop of the `send-messages` command in `main.py`, including the way a row
  without a `username` cell ends the whole run.

Supporting modules:

- `Records` holds the cell, row and table types. A cell is text, an integer
  or missing (pandas' NaN). A row is a map from column name to cell.
- `Text` holds the Python string operations used by the core. `str.replace`
  is specified through `str.split` and `str.join`. It also holds `str.lower`,
  `str(int)` and code-point string ordering.
- `Wrappers` holds `Option`.

Reading a file is a parameter of type `Option<Table>`; `None` is a missing or
unreadable file. The platform client is a function `(Value, string) -> bool`
held in the `Sender`. The clock is a timestamp parameter. `random.choice` and
`random.randint` are nondeterministic choices (`:|`).

Some behaviour of the code worth knowing, which the model keeps:

- `update_user_status` rewrites every matching row, not only the first.
- The follower column read and sorted on is `followersCount`.
- The builder also returns False when follower counts mix numbers and text.
  The sort then compares an `int` with a `str`, raises, and the outer handler
  returns False. So failure is not only "no source succeeded".
- A template without `text` does not fall back to its raw text. The fallback
  reads `text` again and raises too, so `send_message` returns False with no
  send and no log.
- Log records for a success carry the empty string as their error.

As written, the send loop never calls `update_user_status`, so a re-run can
message a user twice. `UserLoader.UpdateThenLoad` states what calling it with
a non-pending status would give: the next load drops exactly that user's rows.

## Model

| member | source | states |
|---|---|---|
| `DmSender.GetTemplate` | src/services/dm_sender.py:74-93 | No template when the category is absent or has none. A non-empty name yields exactly that entry, or none if absent, with no random fallback. An absent or empty name yields some template of the category. Any template returned belongs to the category. |
| `DmSender.FormatMessage` | src/services/dm_sender.py:95-112 | Fails exactly when the template has no `text`. With no or empty `variables` the text comes back unchanged. |
| `DmSender.FormatTextAppend` | src/services/dm_sender.py:104-106 | Formatting is a left fold over the variable list. Formatting with `a + b` is formatting with `a`, then formatting the result with `b`. |
| `DmSender.FormatSkipsAbsent` | src/services/dm_sender.py:104-105 | A declared variable with no cell in the user row has no effect. The result equals formatting with only the variables present. |
| `DmSender.FormatText` | src/services/dm_sender.py:104-106 | The loop over the declared variables, in order. If no declared variable has a cell in the row, every placeholder stays literally: the output is the template text. |
| `DmSender.FormatIgnoresUndeclared` | src/services/dm_sender.py:104-106 | Adding, changing or removing a cell whose column is not declared leaves the message unchanged. Such placeholders are never substituted. |
| `DmSender.FormatOneVariable` | src/services/dm_sender.py:106 | A present variable replaces every occurrence of `{var}`: the text is split at its placeholder and joined with the cell's text. No remaining piece contains the placeholder. |
| `DmSender.GreetingExample` | src/services/dm_sender.py:100-108 | `"Hi {name}!"` with `name` = Ana formats to `"Hi Ana!"`. |
| `DmSender.LogAttempt` | src/services/dm_sender.py:143-145 | The status is `success` exactly when the send succeeded, and then the error is empty. Otherwise the status is `failed` with error `Message sending failed`. Timestamp, username and category are kept. |
| `DmSender.RandomDelay` | src/services/dm_sender.py:118-120 | No delay when the bounds are reversed, since `randint` raises. Otherwise the delay lies in `[min, max]`. |
| `DmSender.SendMessage` | src/services/dm_sender.py:23-53 | At most one send. With no send: returns False, log unchanged. With a send: the text is some category template formatted for the user, the result is the client's answer, and exactly one matching record is appended. No send on a missing cell, no templates, or bad delay bounds. Exactly one send when every category template has text and the bounds are sane. |
| `DmSender.SendOne` | src/services/dm_sender.py:23-53 | One call of `send_message`, as an outcome: any send goes to the user, with a category template formatted for them, and its record logs the client's answer. A ready user is always sent to, a blocked one never. |
| `DmSender.SendAll` | main.py:79-103 | One outcome per user, in list order; a failed or blocked user does not stop the rest. The run stops at the first row without a `username` cell and handles every user before it. In a real run each outcome is what `send_message` does for that user at its time, so a ready user gets exactly one send and nobody outside the list gets any. A dry run sends and logs nothing. The new log is the old one followed by the outcomes' records in order. |
| `DmSender.LoggedFromOutcomes` | main.py:79-84 | Each new log record belongs to a sent outcome, every sent outcome's record is logged, and there are exactly as many records as sent outcomes, so at most one per user. |
| `DmSender.LoggedUsersListed` | main.py:79-84 | After the loop every new record names a listed user and their category, and every ready user handled has a record under their name. |
| `Text.Replace` | src/services/dm_sender.py:106 | `str.replace`, left to right and non-overlapping. A text without the pattern comes back unchanged, and a replacement as long as the pattern keeps the length. |
| `Text.ReplaceIsJoinOfSplit` | src/services/dm_sender.py:106 | `s.replace(p, r)` equals `r.join(s.split(p))` for the left-to-right, non-overlapping replacement. |
| `Text.JoinSplitRoundTrip` | src/services/dm_sender.py:106 | Splitting at a placeholder and joining back with it gives the original text. |
| `Text.SplitHeadFirstOccurrence` | src/services/dm_sender.py:106 | The first split piece ends at the leftmost occurrence of the pattern: no occurrence starts inside it, and it is followed by the pattern unless it is the whole string. This fixes Python's left-to-right choice for self-overlapping patterns. |
| `Text.SplitPiecesFree` | src/services/dm_sender.py:106 | No piece between replaced occurrences contains the placeholder. |
| `Text.ReplaceSelf` | src/services/dm_sender.py:106 | Replacing a placeholder with itself leaves the text unchanged. |
| `Text.NatToDecimal` | src/services/dm_sender.py:106 | `str()` of a non-negative integer cell: non-empty, all decimal digits, no leading zero. |
| `Text.DecimalRoundTrip` | src/services/dm_sender.py:106 | Parsing the decimal text of a number gives the number back. |
| `Text.Lower` | src/data/user_loader.py:32 | `str.lower` on ASCII: the length is kept, each capital letter becomes the small letter at the same alphabet position, every other character is unchanged, and no capital letter remains. |
| `Text.LowerIdempotent` | src/data/user_loader.py:32 | Lower-casing an already lower-cased status changes nothing. |
| `Text.LexLeTotal` | src/utils/csv_processor.py:50 | Python's code-point `<=` on text follower counts is total: of any two strings one is at most the other. |
| `Text.LexLeTrans` | src/utils/csv_processor.py:50 | The same string order is transitive. |
| `Text.LexLeAntisymmetric` | src/utils/csv_processor.py:50 | Two strings each at most the other are equal, so the order on text counts is a total order. |
| `Records.Render` | src/services/dm_sender.py:106 | `str()` of a cell: text as is, NaN as `nan`. A number gives a leading `-` exactly when negative, then decimal digits with no leading zero (except for 0 itself) that parse back to its magnitude, so the rendering is canonical. |
| `UserLoader.PendingRows` | src/data/user_loader.py:32 | Every kept row is an input row with a pending status, and every pending input row is kept. |
| `UserLoader.LoadUsers` | src/data/user_loader.py:11-42 | Empty when the file is missing or a required column is absent. Otherwise every returned row is an input row whose lower-cased status is `pending`, and every such row is returned. |
| `UserLoader.PendingRowsAppend` | src/data/user_loader.py:32-35 | Filtering commutes with concatenation, so input order is preserved. |
| `UserLoader.PendingRowsMultiplicity` | src/data/user_loader.py:32-35 | A pending row appears as often as in the input; any other row never appears. |
| `UserLoader.SetStatus` | src/data/user_loader.py:57 | The masked write keeps the row count. Row `i` of the result is row `i` of the input restatused: a matching row gets the new status; any other row is unchanged, or gains a NaN status if the column is new. |
| `UserLoader.UpdateUserStatus` | src/data/user_loader.py:44-66 | Fails, writing nothing, exactly when the file is unreadable, has no `username` column, or no row matches. Otherwise it keeps the row count and gives every matching row the new status. Other rows are unchanged, or gain a NaN status when the column was created. No non-status cell changes. |
| `UserLoader.UpdateIdempotent` | src/data/user_loader.py:57 | Marking a user twice with the same status equals marking once. |
| `UserLoader.UpdateThenLoad` | src/data/user_loader.py:57 | After marking a user with a non-pending status, the next load returns the previous pending rows minus exactly that user's rows, in order. |
| `UserLoader.GetUserCount` | src/data/user_loader.py:68-79 | Empty for an unreadable file or no `status` column. Otherwise the keys are exactly the non-missing status values present. Each maps to its row count, at least 1. NaN is never a key. |
| `UserLoader.LoadCountMatchesStatusCount` | src/data/user_loader.py:74 | When pending statuses are spelled `pending`, the number of loaded users equals the `pending` count, or 0 if absent. |
| `CsvProcessor.TagSource` | src/utils/csv_processor.py:25-32 | A file yields rows exactly when it was read and has both selected columns. There is one row per input row. Each has exactly the four output cells, the category, status `pending`, and the input's username and follower count. |
| `CsvProcessor.SurvivorsEmptyIff` | src/utils/csv_processor.py:42-44 | Nothing is collected exactly when no source succeeded. |
| `CsvProcessor.SourceRowsIncluded` | src/utils/csv_processor.py:23-40 | A failed source is skipped and the others are still processed. Every row of each successful source is in the combined table. |
| `CsvProcessor.ConcatRowsFromSources` | src/utils/csv_processor.py:31-47 | Every combined row comes from a successful source. |
| `CsvProcessor.ConcatSurvivorsCount` | src/utils/csv_processor.py:47 | The combined row count is the sum of the successful sources' row counts. |
| `CsvProcessor.GeTotal` | src/utils/csv_processor.py:50 | The descending sort order on follower counts is total. |
| `CsvProcessor.GeTrans` | src/utils/csv_processor.py:50 | The descending sort order on follower counts is transitive. |
| `CsvProcessor.SortDesc` | src/utils/csv_processor.py:50 | The sort is a permutation of its input, and its output is non-increasing in follower count, with missing counts last. |
| `CsvProcessor.BuildWorklist` | src/utils/csv_processor.py:7-65 | Fails exactly when no source succeeded or follower counts mix numbers and text. Otherwise the columns are the four output columns. The rows are a permutation of the concatenated tagged rows, as many as the successful inputs together. They are sorted non-increasingly, include every successful source's rows, and each is `pending` with exactly four cells and a successful source's category. |
| `CsvProcessor.ProcessCategoryFiles` | src/utils/csv_processor.py:13-23 | With the three fixed categories: every output row's category is `fashion`, `home_decor` or `cosmetics`, and the build fails when no file can be read. |

## Left out

- File I/O: `pd.read_csv`, `to_csv`, `mkdir`, appends to `logs/sent_log.csv`, and their failures. Reads are parameters; writes are the returned table or log.
- `_load_templates`, `_ensure_log_file` and `get_daily_sent_count`: JSON/CSV file I/O and pandas datetime parsing.
- `src/auth/instagram_client.py`: login, sessions, and the relogin-and-resend inside `send_dm` depend on the third-party client. The client is an abstract function.
- `main.py`, except the send loop: Typer commands, Rich output, the progress bar, the dry-run printing of `template_1`/`template_2`, `show_stats`, `test_connection` and `clear_logs`.
- `src/utils/logger.py` and all logging calls; `extract_usernames.py`.
- `time.sleep` and reading the delay bounds from environment variables. The bounds are given as integers, and a negative delay (which makes `sleep` raise) is a failed call.
- `DmSender.GetTemplate`: states only that the choice falls among the category's templates, not that `random.choice` is uniform.
- `DmSender.SendMessage`: says only that the text came from some template of the category, since the choice is random.
- `Text.Lower`: only ASCII letters are lower-cased. No non-ASCII character lower-cases to exactly one letter of `pending`, so the pending test agrees with Python's `str.lower`.
- Floating-point cells: pandas reads an integer column holding NaN as floats, so its values render like `1234.0`. Numbers are modelled as integers.
- Pandas type inference is not modelled: numeric-looking text becomes a number. A `Str` cell is a column pandas kept as text.
- Template JSON of another shape is not modelled: a non-list `variables`, non-string entries (numbers, booleans and null are simply never a cell name and are skipped; only list or object entries raise and reach the raw-text fallback), or non-dictionary category entries.
- The status line printed per user, and the dry run's template printing. A dry-run user whose template lookup raises still gets a `NotSent` outcome, as the loop goes on to the next user.
- `DmSender.SendAll`: the rows `load_users` returns always carry a `username` cell, so the early stop on a row without one only arises for rows built some other way. `Records.Table` does not itself require every row to carry every column.
- `CsvProcessor.SortDesc`: pandas sorts with an unstable quicksort. Which order it gives to rows with equal follower counts is not modelled, and no stability is claimed.
- Timestamp formatting: the timestamp is an opaque string from the clock.

=== FILE: csv_processor.dfy ===
/**
  The worklist builder: every category's scraped table is cut down to the
  username and follower count, tagged with its category and a pending
  status; the surviving tables are concatenated, sorted by follower count
  (largest first) and written out with four columns. Each input file is a
  parameter: `None` stands for a file pandas cannot read.
*/
module CsvProcessor {
  import opened Wrappers
  import opened Text
  import opened Records

  /** The category keys, in the order the builder visits their files. */
  const Categories: seq<string> := ["fashion", "home_decor", "cosmetics"]

  /** The columns a source table must have. */
  const SourceColumns: seq<string> := ["username", "followersCount"]

  /** The columns of the combined worklist, in output order. */
  const OutputColumns: seq<string> := ["username", "category", "status", "followersCount"]

  /** The cells every worklist row carries. */
  const OutputKeys: set<string> := {"username", "category", "status", "followersCount"}

  /** One source row after column selection and tagging. */
  function TagRow(r: Row, category: string): Row {
    map["username" := Get(r, "username"), "followersCount" := Get(r, "followersCount"),
        "category" := Str(category), "status" := Str("pending")]
  }

  /**
    One category file: `None` when it cannot be read or lacks a selected
    column (the source skips it), else its rows tagged.
  */
  function TagSource(category: string, source: Option<Table>): (r: Option<seq<Row>>)
    ensures r.Some? <==> source.Some? && HasColumns(source.value, SourceColumns)
    ensures r.Some? ==> |r.value| == |source.value.rows|
    ensures r.Some? ==>
              forall i :: 0 <= i < |r.value| ==>
                && r.value[i].Keys == OutputKeys
                && Get(r.value[i], "category") == Str(category)
                && Get(r.value[i], "status") == Str("pending")
                && Get(r.value[i], "username") == Get(source.value.rows[i], "username")
                && Get(r.value[i], "followersCount") == Get(source.value.rows[i], "followersCount")
  {
    match source
    case None => None
    case Some(t) =>
      if HasColumns(t, SourceColumns) then
        Some(seq(|t.rows|, i requires 0 <= i < |t.rows| => TagRow(t.rows[i], category)))
      else None
  }

  /** The tagged tables of the sources that could be processed, in order. */
  function Survivors(categories: seq<string>, files: seq<Option<Table>>): seq<seq<Row>>
    requires |categories| == |files|
    decreases |categories|
  {
    if |categories| == 0 then []
    else
      var tagged := TagSource(categories[0], files[0]);
      (if tagged.Some? then [tagged.value] else []) + Survivors(categories[1..], files[1..])
  }

  predicate Succeeded(categories: seq<string>, files: seq<Option<Table>>, i: int)
    requires |categories| == |files|
  {
    0 <= i < |categories| && TagSource(categories[i], files[i]).Some?
  }

  predicate AnySucceeded(categories: seq<string>, files: seq<Option<Table>>)
    requires |categories| == |files|
  {
    exists i :: 0 <= i < |categories| && Succeeded(categories, files, i)
  }

  /** `pd.concat`: the rows of all tables, table after table. */
  function Concat(tables: seq<seq<Row>>): seq<Row>
    decreases |tables|
  {
    if |tables| == 0 then [] else tables[0] + Concat(tables[1..])
  }

  /** The number of input rows over the sources that could be processed. */
  function SuccessfulRowCount(categories: seq<string>, files: seq<Option<Table>>): nat
    requires |categories| == |files|
    decreases |categories|
  {
    if |categories| == 0 then 0
    else
      (if TagSource(categories[0], files[0]).Some? then |files[0].value.rows| else 0)
      + SuccessfulRowCount(categories[1..], files[1..])
  }

  /** There is nothing to concatenate exactly when no source succeeded. */
  lemma {:induction false} SurvivorsEmptyIff(categories: seq<string>, files: seq<Option<Table>>)
    requires |categories| == |files|
    ensures Survivors(categories, files) == [] <==> !AnySucceeded(categories, files)
    decreases |categories|
  {
    if |categories| > 0 {
      SurvivorsEmptyIff(categories[1..], files[1..]);
      var rest := Survivors(categories[1..], files[1..]);
      var tagged := TagSource(categories[0], files[0]);
      var head := if tagged.Some? then [tagged.value] else [];
      assert Survivors(categories, files) == head + rest;
      if tagged.Some? {
        assert Succeeded(categories, files, 0);
      }
      if AnySucceeded(categories[1..], files[1..]) {
        var i :| 0 <= i < |categories[1..]| && Succeeded(categories[1..], files[1..], i);
        assert categories[1..][i] == categories[i + 1] && files[1..][i] == files[i + 1];
        assert Succeeded(categories, files, i + 1);
      }
      if AnySucceeded(categories, files) {
        var i :| 0 <= i < |categories| && Succeeded(categories, files, i);
        if i > 0 {
          assert categories[1..][i - 1] == categories[i] && files[1..][i - 1] == files[i];
          assert Succeeded(categories[1..], files[1..], i - 1);
        }
      }
    }
  }

  /** The combined table has as many rows as the processed sources together. */
  lemma {:induction false} ConcatSurvivorsCount(categories: seq<string>, files: seq<Option<Table>>)
    requires |categories| == |files|
    ensures |Concat(Survivors(categories, files))| == SuccessfulRowCount(categories, files)
    decreases |categories|
  {
    if |categories| > 0 {
      ConcatSurvivorsCount(categories[1..], files[1..]);
      var rest := Survivors(categories[1..], files[1..]);
      var tagged := TagSource(categories[0], files[0]);
      if tagged.Some? {
        assert Survivors(categories, files) == [tagged.value] + rest;
        assert ([tagged.value] + rest)[1..] == rest;
      } else {
        assert Survivors(categories, files) == rest;
      }
    }
  }

  /** Every processed source contributes all its rows, failed ones notwithstanding. */
  lemma {:induction false} SourceRowsIncluded(categories: seq<string>, files: seq<Option<Table>>, i: int)
    requires |categories| == |files|
    requires Succeeded(categories, files, i)
    ensures multiset(TagSource(categories[i], files[i]).value) <= multiset(Concat(Survivors(categories, files)))
    decreases |categories|
  {
    var rest := Survivors(categories[1..], files[1..]);
    var tagged := TagSource(categories[0], files[0]);
    var head := if tagged.Some? then [tagged.value] else [];
    assert Survivors(categories, files) == head + rest;
    if i == 0 {
      IncludedInHead(tagged.value, rest);
    } else {
      assert categories[1..][i - 1] == categories[i] && files[1..][i - 1] == files[i];
      assert Succeeded(categories[1..], files[1..], i - 1);
      SourceRowsIncluded(categories[1..], files[1..], i - 1);
      IncludedInRest(head, rest, TagSource(categories[i], files[i]).value);
    }
  }

  lemma IncludedInHead(part: seq<Row>, rest: seq<seq<Row>>)
    ensures multiset(part) <= multiset(Concat([part] + rest))
  {
    assert ([part] + rest)[1..] == rest;
  }

  lemma IncludedInRest(head: seq<seq<Row>>, rest: seq<seq<Row>>, part: seq<Row>)
    requires multiset(part) <= multiset(Concat(rest))
    ensures multiset(part) <= multiset(Concat(head + rest))
  {
    ConcatAppend(head, rest);
  }

  lemma {:induction false} ConcatAppend(a: seq<seq<Row>>, b: seq<seq<Row>>)
    ensures Concat(a + b) == Concat(a) + Concat(b)
    decreases |a|
  {
    if |a| > 0 {
      assert (a + b)[1..] == a[1..] + b;
      ConcatAppend(a[1..], b);
    } else {
      assert a + b == b;
    }
  }

  /** Every combined row comes from some processed source. */
  lemma {:induction false} ConcatRowsFromSources(categories: seq<string>, files: seq<Option<Table>>, x: Row)
    requires |categories| == |files|
    requires x in Concat(Survivors(categories, files))
    ensures exists i :: Succeeded(categories, files, i) && x in TagSource(categories[i], files[i]).value
    decreases |categories|
  {
    var rest := Survivors(categories[1..], files[1..]);
    var tagged := TagSource(categories[0], files[0]);
    if tagged.None? {
      assert Survivors(categories, files) == rest;
      ConcatRowsFromSources(categories[1..], files[1..], x);
      var i :| Succeeded(categories[1..], files[1..], i) && x in TagSource(categories[1..][i], files[1..][i]).value;
      assert categories[1..][i] == categories[i + 1] && files[1..][i] == files[i + 1];
      assert Succeeded(categories, files, i + 1);
    } else {
      var rows := tagged.value;
      assert Survivors(categories, files) == [rows] + rest;
      assert ([rows] + rest)[1..] == rest;
      if x in rows {
        assert Succeeded(categories, files, 0);
      } else {
        ConcatRowsFromSources(categories[1..], files[1..], x);
        var i :| Succeeded(categories[1..], files[1..], i) && x in TagSource(categories[1..][i], files[1..][i]).value;
        assert categories[1..][i] == categories[i + 1] && files[1..][i] == files[i + 1];
        assert Succeeded(categories, files, i + 1);
      }
    }
  }

  function Followers(r: Row): Value {
    Get(r, "followersCount")
  }

  /**
    `a` may precede `b` in `sort_values(ascending=False)`: numbers and texts
    each in descending order, missing counts last. Numbers and texts are
    never sorted together (see `MixedKeys`); their relative rank here only
    makes the relation total.
  */
  predicate Ge(a: Value, b: Value) {
    match (a, b)
    case (_, Missing) => true
    case (Missing, _) => false
    case (Num(x), Num(y)) => x >= y
    case (Str(x), Str(y)) => LexLe(y, x)
    case (Num(_), Str(_)) => true
    case (Str(_), Num(_)) => false
  }

  lemma GeTotal(a: Value, b: Value)
    ensures Ge(a, b) || Ge(b, a)
  {
    if a.Str? && b.Str? {
      LexLeTotal(a.s, b.s);
    }
  }

  lemma GeTrans(a: Value, b: Value, c: Value)
    requires Ge(a, b) && Ge(b, c)
    ensures Ge(a, c)
  {
    if a.Str? && b.Str? && c.Str? {
      LexLeTrans(c.s, b.s, a.s);
    }
  }

  /** Non-increasing by follower count. */
  predicate SortedDesc(rows: seq<Row>) {
    forall i, j :: 0 <= i < j < |rows| ==> Ge(Followers(rows[i]), Followers(rows[j]))
  }

  /** The combined rows hold both numeric and textual follower counts. */
  predicate MixedKeys(rows: seq<Row>) {
    (exists i :: 0 <= i < |rows| && Followers(rows[i]).Num?)
    && (exists j :: 0 <= j < |rows| && Followers(rows[j]).Str?)
  }

  function Insert(x: Row, rows: seq<Row>): seq<Row>
    decreases |rows|
  {
    if |rows| == 0 then [x]
    else if Ge(Followers(x), Followers(rows[0])) then [x] + rows
    else [rows[0]] + Insert(x, rows[1..])
  }

  /** A descending sort by follower count (no stability is claimed). */
  function SortDesc(rows: seq<Row>): (r: seq<Row>)
    ensures multiset(r) == multiset(rows)
    ensures SortedDesc(r)
    decreases |rows|
  {
    if |rows| == 0 then []
    else
      var rest := SortDesc(rows[1..]);
      SortStep(rows, rest);
      Insert(rows[0], rest)
  }

  /** Inserting the head into the sorted tail sorts the whole list. */
  lemma SortStep(rows: seq<Row>, rest: seq<Row>)
    requires |rows| > 0
    requires multiset(rest) == multiset(rows[1..]) && SortedDesc(rest)
    ensures multiset(Insert(rows[0], rest)) == multiset(rows)
    ensures SortedDesc(Insert(rows[0], rest))
  {
    InsertPermutes(rows[0], rest);
    InsertSorted(rows[0], rest);
    assert rows == [rows[0]] + rows[1..];
  }

  lemma {:induction false} InsertPermutes(x: Row, rows: seq<Row>)
    ensures multiset(Insert(x, rows)) == multiset(rows) + multiset{x}
    decreases |rows|
  {
    if |rows| > 0 && !Ge(Followers(x), Followers(rows[0])) {
      InsertPermutes(x, rows[1..]);
      assert rows == [rows[0]] + rows[1..];
    }
  }

  /** A row that ranks at or above every row of a sorted list can head it. */
  lemma SortedCons(y: Row, rows: seq<Row>)
    requires SortedDesc(rows)
    requires forall z :: z in rows ==> Ge(Followers(y), Followers(z))
    ensures SortedDesc([y] + rows)
  {
    var r := [y] + rows;
    forall i, j | 0 <= i < j < |r|
      ensures Ge(Followers(r[i]), Followers(r[j]))
    {
      if i == 0 {
        assert r[j] in rows;
      } else {
        assert r[i] == rows[i - 1] && r[j] == rows[j - 1];
      }
    }
  }

  lemma InsertMembers(x: Row, rows: seq<Row>)
    ensures forall z :: z in Insert(x, rows) ==> z == x || z in rows
  {
    InsertPermutes(x, rows);
    forall z | z in Insert(x, rows)
      ensures z == x || z in rows
    {
      assert z in multiset(Insert(x, rows));
    }
  }

  lemma {:induction false} InsertSorted(x: Row, rows: seq<Row>)
    requires SortedDesc(rows)
    ensures SortedDesc(Insert(x, rows))
    decreases |rows|
  {
    if |rows| == 0 {
    } else if Ge(Followers(x), Followers(rows[0])) {
      forall z | z in rows
        ensures Ge(Followers(x), Followers(z))
      {
        var k :| 0 <= k < |rows| && rows[k] == z;
        if k > 0 {
          GeTrans(Followers(x), Followers(rows[0]), Followers(z));
        }
      }
      SortedCons(x, rows);
    } else {
      GeTotal(Followers(x), Followers(rows[0]));
      var tail := rows[1..];
      assert SortedDesc(tail);
      InsertSorted(x, tail);
      InsertMembers(x, tail);
      forall z | z in Insert(x, tail)
        ensures Ge(Followers(rows[0]), Followers(z))
      {
        if z != x {
          var k :| 0 <= k < |tail| && tail[k] == z;
          assert rows[k + 1] == z;
        }
      }
      SortedCons(rows[0], Insert(x, tail));
    }
  }

  /**
    `process_category_files` over the given category keys and the read
    result of each category's file: `None` when the source returns False.
  */
  function BuildWorklist(categories: seq<string>, files: seq<Option<Table>>): (r: Option<Table>)
    requires |categories| == |files|
    ensures r.None? <==>
              !AnySucceeded(categories, files) || MixedKeys(Concat(Survivors(categories, files)))
    ensures r.Some? ==> r.value.columns == OutputColumns
    ensures r.Some? ==> |r.value.rows| == SuccessfulRowCount(categories, files)
    ensures r.Some? ==> multiset(r.value.rows) == multiset(Concat(Survivors(categories, files)))
    ensures r.Some? ==> SortedDesc(r.value.rows)
    ensures r.Some? ==>
              forall i :: Succeeded(categories, files, i) ==>
                multiset(TagSource(categories[i], files[i]).value) <= multiset(r.value.rows)
    ensures r.Some? ==>
              forall x :: x in r.value.rows ==>
                && x.Keys == OutputKeys
                && Get(x, "status") == Str("pending")
                && exists i :: Succeeded(categories, files, i) && Get(x, "category") == Str(categories[i])
  {
    var tables := Survivors(categories, files);
    SurvivorsEmptyIff(categories, files);
    if tables == [] then None
    else
      var all := Concat(tables);
      if MixedKeys(all) then None
      else
        var sorted := SortDesc(all);
        ConcatSurvivorsCount(categories, files);
        assert |sorted| == |all| by {
          assert |multiset(sorted)| == |multiset(all)|;
        }
        assert forall i :: Succeeded(categories, files, i) ==>
                 multiset(TagSource(categories[i], files[i]).value) <= multiset(sorted) by {
          forall i | Succeeded(categories, files, i)
            ensures multiset(TagSource(categories[i], files[i]).value) <= multiset(sorted)
          {
            SourceRowsIncluded(categories, files, i);
          }
        }
        assert forall x :: x in sorted ==>
                 && x.Keys == OutputKeys
                 && Get(x, "status") == Str("pending")
                 && exists i :: Succeeded(categories, files, i) && Get(x, "category") == Str(categories[i]) by {
          forall x | x in sorted
            ensures && x.Keys == OutputKeys
                    && Get(x, "status") == Str("pending")
                    && exists i :: Succeeded(categories, files, i) && Get(x, "category") == Str(categories[i])
          {
            assert x in multiset(sorted);
            ConcatRowsFromSources(categories, files, x);
            var i :| Succeeded(categories, files, i) && x in TagSource(categories[i], files[i]).value;
            var k :| 0 <= k < |TagSource(categories[i], files[i]).value| && TagSource(categories[i], files[i]).value[k] == x;
          }
        }
        Some(Table(OutputColumns, sorted))
  }

  /** `process_category_files` with its three fixed category files. */
  function ProcessCategoryFiles(files: seq<Option<Table>>): (r: Option<Table>)
    requires |files| == |Categories|
    ensures r.Some? ==>
              forall x :: x in r.value.rows ==> exists c :: c in Categories && Get(x, "category") == Str(c)
    ensures (forall i :: 0 <= i < |files| ==> files[i].None?) ==> r.None?
  {
    var r := BuildWorklist(Categories, files);
    assert (forall i :: 0 <= i < |files| ==> files[i].None?) ==> !AnySucceeded(Categories, files);
    r
  }
}

=== FILE: dm_sender.dfy ===
/**
  The send orchestrator: picks a message template for a user's category,
  substitutes the user's cells into it, waits, hands the text to the
  platform client and appends one record to the send log.

  The platform client is the `client` function of a `Sender`; the clock is
  the `now` timestamp passed in; `random.choice` and `random.randint` are
  nondeterministic choices; the log file is the sequence of records.
*/
module DmSender {
  import opened Wrappers
  import opened Text
  import opened Records

  /** A template entry of the templates file: `{"text": …, "variables": […]}`. */
  datatype Template = Template(text: Option<string>, variables: Option<seq<string>>)

  /** Category name to template name to template, as loaded from the JSON file. */
  type Templates = map<string, map<string, Template>>

  /** One row of the send log. */
  datatype LogRecord = LogRecord(timestamp: string, username: Value, category: Value, status: string, error: string)

  /** One message handed to the platform client. */
  datatype Outbound = Outbound(username: Value, text: string)

  /** The sender's configuration: templates, client, delay bounds in seconds. */
  datatype Sender = Sender(templates: Templates, client: (Value, string) -> bool, minDelay: int, maxDelay: int)

  /** A template dictionary with no entries (`not template` holds). */
  predicate IsEmpty(t: Template) {
    t.text.None? && t.variables.None?
  }

  /** `templates.get(category, {})`; a non-text category matches no key. */
  function CategoryTemplates(templates: Templates, category: Value): map<string, Template> {
    if category.Str? && category.s in templates then templates[category.s] else map[]
  }

  /**
    `_get_template`: the named template when a non-empty name is given (no
    fallback when it is absent), otherwise any one of the category's templates.
  */
  method GetTemplate(templates: Templates, category: Value, name: Option<string>) returns (r: Option<Template>)
    ensures CategoryTemplates(templates, category) == map[] ==> r.None?
    ensures r.Some? ==> r.value in CategoryTemplates(templates, category).Values
    ensures var cat := CategoryTemplates(templates, category);
            cat != map[] && name.Some? && name.value != "" ==>
              r == (if name.value in cat then Some(cat[name.value]) else None)
    ensures var cat := CategoryTemplates(templates, category);
            cat != map[] && (name.None? || name.value == "") ==> r.Some?
  {
    var cat := CategoryTemplates(templates, category);
    if cat == map[] {
      return None;
    }
    if name.Some? && name.value != "" {
      if name.value in cat {
        return Some(cat[name.value]);
      }
      return None;
    }
    var key :| key in cat;
    return Some(cat[key]);
  }

  /** The placeholder `{v}` that stands for variable `v`. */
  function Placeholder(v: string): string {
    "{" + v + "}"
  }

  /** One step of the formatting loop. */
  function Substitute(message: string, v: string, user: Row): string {
    if v in user then Replace(message, Placeholder(v), Render(user[v])) else message
  }

  /** No declared variable has a cell in the row. */
  predicate NonePresent(variables: seq<string>, user: Row) {
    forall i :: 0 <= i < |variables| ==> variables[i] !in user
  }

  /** The formatting loop over the declared variables, in order. */
  function FormatText(text: string, variables: seq<string>, user: Row): (r: string)
    ensures NonePresent(variables, user) ==> r == text
    decreases |variables|
  {
    if |variables| == 0 then text
    else
      assert forall i :: 0 <= i < |variables[1..]| ==> variables[1..][i] == variables[i + 1];
      FormatText(Substitute(text, variables[0], user), variables[1..], user)
  }

  /**
    `_format_message`: `None` when the template has no text (the lookup
    raises, and so does the fallback, so the caller's handler takes over).
  */
  function FormatMessage(t: Template, user: Row): (r: Option<string>)
    ensures r.None? <==> t.text.None?
    ensures t.text.Some? && (t.variables.None? || t.variables.value == []) ==> r == Some(t.text.value)
  {
    match t.text
    case None => None
    case Some(text) => Some(FormatText(text, t.variables.GetOr([]), user))
  }

  /** Formatting with `a + b` is formatting with `a`, then with `b`. */
  lemma {:induction false} FormatTextAppend(text: string, a: seq<string>, b: seq<string>, user: Row)
    ensures FormatText(text, a + b, user) == FormatText(FormatText(text, a, user), b, user)
    decreases |a|
  {
    if |a| > 0 {
      assert (a + b)[1..] == a[1..] + b;
      FormatTextAppend(Substitute(text, a[0], user), a[1..], b, user);
    } else {
      assert a + b == b;
    }
  }

  /** The declared variables that the user row has a cell for. */
  function Present(variables: seq<string>, user: Row): (r: seq<string>)
    decreases |variables|
  {
    if |variables| == 0 then []
    else (if variables[0] in user then [variables[0]] else []) + Present(variables[1..], user)
  }

  /** A declared variable missing from the row is skipped. */
  lemma {:induction false} FormatSkipsAbsent(text: string, variables: seq<string>, user: Row)
    ensures FormatText(text, variables, user) == FormatText(text, Present(variables, user), user)
    decreases |variables|
  {
    if |variables| > 0 {
      var v := variables[0];
      FormatSkipsAbsent(Substitute(text, v, user), variables[1..], user);
      if v in user {
        assert Present(variables, user) == [v] + Present(variables[1..], user);
        assert ([v] + Present(variables[1..], user))[1..] == Present(variables[1..], user);
      } else {
        assert Present(variables, user) == Present(variables[1..], user);
      }
    }
  }

  /** A cell whose column is not declared in the template has no effect. */
  lemma {:induction false} FormatIgnoresUndeclared(text: string, variables: seq<string>, user: Row, k: string, v: Value)
    requires k !in variables
    ensures FormatText(text, variables, user[k := v]) == FormatText(text, variables, user)
    ensures FormatText(text, variables, user - {k}) == FormatText(text, variables, user)
    decreases |variables|
  {
    if |variables| > 0 {
      var w := variables[0];
      assert w != k;
      assert Substitute(text, w, user[k := v]) == Substitute(text, w, user);
      assert Substitute(text, w, user - {k}) == Substitute(text, w, user);
      FormatIgnoresUndeclared(Substitute(text, w, user), variables[1..], user, k, v);
    }
  }

  /**
    One present variable: the text is cut at every occurrence of its
    placeholder and the pieces, none of which holds the placeholder, are
    joined with the cell's text.
  */
  lemma {:induction false} FormatOneVariable(text: string, v: string, user: Row)
    requires v in user
    ensures FormatText(text, [v], user) == Join(Split(text, Placeholder(v)), Render(user[v]))
    ensures forall i :: 0 <= i < |Split(text, Placeholder(v))| ==>
              !Contains(Split(text, Placeholder(v))[i], Placeholder(v))
  {
    ReplaceIsJoinOfSplit(text, Placeholder(v), Render(user[v]));
    SplitPiecesFree(text, Placeholder(v));
  }

  /** The greeting example: `"Hi {name}!"` with name Ana gives `"Hi Ana!"`. */
  lemma GreetingExample()
    ensures FormatMessage(Template(Some("Hi {name}!"), Some(["name"])), map["name" := Str("Ana")])
            == Some("Hi Ana!")
  {
    GreetingReplace();
    var user := map["name" := Str("Ana")];
    assert Render(user["name"]) == "Ana";
    assert Substitute("Hi {name}!", "name", user) == "Hi Ana!";
    assert ["name"][1..] == [];
    assert FormatText("Hi {name}!", ["name"], user) == FormatText("Hi Ana!", [], user) == "Hi Ana!";
  }

  /** The one replacement the greeting example performs, character by character. */
  lemma GreetingReplace()
    ensures Replace("Hi {name}!", Placeholder("name"), "Ana") == "Hi Ana!"
  {
    var pat := Placeholder("name");
    assert pat == "{name}";
    assert !(pat <= "!") && "!"[1..] == "";
    assert Replace("!", pat, "Ana") == "!";
    assert "{name}!"[..6] == pat && "{name}!"[6..] == "!";
    assert Replace("{name}!", pat, "Ana") == "Ana!";
    assert !(pat <= " {name}!") && " {name}!"[1..] == "{name}!";
    assert Replace(" {name}!", pat, "Ana") == " Ana!";
    assert !(pat <= "i {name}!") && "i {name}!"[1..] == " {name}!";
    assert Replace("i {name}!", pat, "Ana") == "i Ana!";
    assert !(pat <= "Hi {name}!") && "Hi {name}!"[1..] == "i {name}!";
  }

  /** `_log_attempt`: the record for one send attempt. */
  function LogAttempt(timestamp: string, username: Value, category: Value, success: bool): (r: LogRecord)
    ensures r.timestamp == timestamp && r.username == username && r.category == category
    ensures r.status == "success" <==> success
    ensures r.status == "failed" <==> !success
    ensures r.status == "success" <==> r.error == ""
    ensures !success ==> r.error == "Message sending failed"
  {
    if success then LogRecord(timestamp, username, category, "success", "")
    else LogRecord(timestamp, username, category, "failed", "Message sending failed")
  }

  /**
    `random.randint(minDelay, maxDelay)`: `None` when the bounds are
    reversed (randint raises), otherwise a delay within the bounds.
  */
  method RandomDelay(minDelay: int, maxDelay: int) returns (d: Option<int>)
    ensures d.None? <==> minDelay > maxDelay
    ensures d.Some? ==> minDelay <= d.value <= maxDelay
  {
    if minDelay > maxDelay {
      return None;
    }
    var delay :| minDelay <= delay <= maxDelay;
    return Some(delay);
  }

  /** Every template of the category has a text, and there is at least one. */
  predicate AllFormattable(cat: map<string, Template>) {
    cat != map[] && forall t :: t in cat.Values ==> t.text.Some?
  }

  /**
    `send_message`: returns the client's answer after exactly one send and
    one log append, or False with neither (missing cell, no template, a
    template without text, unusable delay bounds).
  */
  method SendMessage(s: Sender, user: Row, log: seq<LogRecord>, now: string)
    returns (ok: bool, sent: seq<Outbound>, log': seq<LogRecord>)
    ensures |sent| <= 1
    ensures sent == [] ==> !ok && log' == log
    ensures |sent| == 1 ==>
              && sent[0].username == Get(user, "username")
              && ok == s.client(sent[0].username, sent[0].text)
              && log' == log + [LogAttempt(now, Get(user, "username"), Get(user, "category"), ok)]
              && exists t :: t in CategoryTemplates(s.templates, Get(user, "category")).Values
                   && t.text.Some? && sent[0].text == FormatText(t.text.value, t.variables.GetOr([]), user)
    ensures "username" !in user || "category" !in user ==> sent == []
    ensures CategoryTemplates(s.templates, Get(user, "category")) == map[] ==> sent == []
    ensures s.minDelay > s.maxDelay || s.maxDelay < 0 ==> sent == []
    ensures ("username" in user && "category" in user
             && AllFormattable(CategoryTemplates(s.templates, user["category"]))
             && 0 <= s.minDelay <= s.maxDelay) ==> |sent| == 1
  {
    if "username" !in user || "category" !in user {
      return false, [], log;
    }
    var username := user["username"];
    var category := user["category"];
    var t := GetTemplate(s.templates, category, None);
    if t.None? || IsEmpty(t.value) {
      return false, [], log;
    }
    var message := FormatMessage(t.value, user);
    if message.None? {
      return false, [], log;
    }
    var delay := RandomDelay(s.minDelay, s.maxDelay);
    if delay.None? || delay.value < 0 {
      return false, [], log;
    }
    ok := s.client(username, message.value);
    sent := [Outbound(username, message.value)];
    log' := log + [LogAttempt(now, username, category, ok)];
  }

  /**
    The user can be sent to: both cells are present, the category has at
    least one template and all of them have a text, and the delay bounds
    give a non-negative delay.
  */
  predicate Ready(s: Sender, user: Row) {
    && "username" in user && "category" in user
    && AllFormattable(CategoryTemplates(s.templates, user["category"]))
    && 0 <= s.minDelay <= s.maxDelay
  }

  /** `send_message` returns False before sending: a missing cell, no template, unusable bounds. */
  predicate Blocked(s: Sender, user: Row) {
    || "username" !in user || "category" !in user
    || CategoryTemplates(s.templates, Get(user, "category")) == map[]
    || s.minDelay > s.maxDelay || s.maxDelay < 0
  }

  /** What the send loop did for one user: nothing, or one message and its log record. */
  datatype Outcome = NotSent | Sent(message: Outbound, record: LogRecord)

  /**
    `o` is what `send_message(user)` at time `now` can do: a send goes to the
    user with some template of the category formatted for them, and logs the
    client's answer; a ready user is always sent to, a blocked one never.
  */
  predicate Handled(s: Sender, user: Row, now: string, o: Outcome) {
    && (o.Sent? ==>
          && o.message.username == Get(user, "username")
          && o.record == LogAttempt(now, Get(user, "username"), Get(user, "category"),
                                    s.client(o.message.username, o.message.text))
          && exists t :: t in CategoryTemplates(s.templates, Get(user, "category")).Values
               && t.text.Some? && o.message.text == FormatText(t.text.value, t.variables.GetOr([]), user))
    && (Ready(s, user) ==> o.Sent?)
    && (Blocked(s, user) ==> o.NotSent?)
  }

  /** The log records of the first `n` outcomes, in order. */
  function LoggedUpTo(outcomes: seq<Outcome>, n: nat): seq<LogRecord>
    requires n <= |outcomes|
    decreases n
  {
    if n == 0 then []
    else LoggedUpTo(outcomes, n - 1) + (if outcomes[n - 1].Sent? then [outcomes[n - 1].record] else [])
  }

  /** The number of sent outcomes among the first `n`. */
  function SentUpTo(outcomes: seq<Outcome>, n: nat): nat
    requires n <= |outcomes|
    decreases n
  {
    if n == 0 then 0 else SentUpTo(outcomes, n - 1) + (if outcomes[n - 1].Sent? then 1 else 0)
  }

  /** The log records of the outcomes, in order. */
  function Logged(outcomes: seq<Outcome>): seq<LogRecord> {
    LoggedUpTo(outcomes, |outcomes|)
  }

  lemma {:induction false} LoggedUpToPrefix(a: seq<Outcome>, b: seq<Outcome>, n: nat)
    requires n <= |a|
    ensures LoggedUpTo(a + b, n) == LoggedUpTo(a, n)
    decreases n
  {
    if n > 0 {
      LoggedUpToPrefix(a, b, n - 1);
      assert (a + b)[n - 1] == a[n - 1];
    }
  }

  /** One more outcome adds its record, if any, at the end of the log. */
  lemma LoggedSnoc(outcomes: seq<Outcome>, o: Outcome)
    ensures Logged(outcomes + [o]) == Logged(outcomes) + (if o.Sent? then [o.record] else [])
  {
    LoggedUpToPrefix(outcomes, [o], |outcomes|);
    assert (outcomes + [o])[|outcomes|] == o;
  }

  lemma {:induction false} LoggedUpToFrom(outcomes: seq<Outcome>, n: nat)
    requires n <= |outcomes|
    ensures |LoggedUpTo(outcomes, n)| == SentUpTo(outcomes, n) <= n
    ensures forall r :: r in LoggedUpTo(outcomes, n) ==>
              exists k :: 0 <= k < n && outcomes[k].Sent? && outcomes[k].record == r
    ensures forall k :: 0 <= k < n && outcomes[k].Sent? ==> outcomes[k].record in LoggedUpTo(outcomes, n)
    decreases n
  {
    if n > 0 {
      LoggedUpToFrom(outcomes, n - 1);
    }
  }

  /**
    Every logged record belongs to a sent outcome, every sent outcome is
    logged, and there are exactly as many records as sends.
  */
  lemma LoggedFromOutcomes(outcomes: seq<Outcome>)
    ensures |Logged(outcomes)| == SentUpTo(outcomes, |outcomes|) <= |outcomes|
    ensures forall r :: r in Logged(outcomes) ==>
              exists k :: 0 <= k < |outcomes| && outcomes[k].Sent? && outcomes[k].record == r
    ensures forall k :: 0 <= k < |outcomes| && outcomes[k].Sent? ==> outcomes[k].record in Logged(outcomes)
  {
    LoggedUpToFrom(outcomes, |outcomes|);
  }

  /**
    One user of the send loop: `send_message` run on a fresh copy of the
    log, reported as the outcome it had.
  */
  method SendOne(s: Sender, user: Row, log: seq<LogRecord>, now: string) returns (o: Outcome)
    ensures Handled(s, user, now, o)
  {
    var ok, one, log1 := SendMessage(s, user, log, now);
    if |one| == 1 {
      o := Sent(one[0], log1[|log1| - 1]);
    } else {
      o := NotSent;
    }
  }

  /**
    The send loop of the `send-messages` command: one outcome per user, in
    order, a failed user not stopping the rest. A row without a `username`
    cell ends the whole run, since the loop's error handler reads that cell
    again and the outer handler exits; the users before it keep their
    outcomes. A dry run sends and logs nothing. `clock(i)` is the time at
    which user `i` is handled.
  */
  method SendAll(s: Sender, users: seq<Row>, dryRun: bool, log: seq<LogRecord>, clock: nat -> string)
    returns (outcomes: seq<Outcome>, log': seq<LogRecord>)
    ensures |outcomes| <= |users|
    ensures forall k :: 0 <= k < |outcomes| ==> "username" in users[k]
    ensures |outcomes| < |users| ==> "username" !in users[|outcomes|]
    ensures dryRun ==> log' == log && forall k :: 0 <= k < |outcomes| ==> outcomes[k].NotSent?
    ensures !dryRun ==> forall k :: 0 <= k < |outcomes| ==> Handled(s, users[k], clock(k), outcomes[k])
    ensures log' == log + Logged(outcomes)
  {
    outcomes, log' := [], log;
    var i := 0;
    while i < |users| && "username" in users[i]
      invariant 0 <= i <= |users| && |outcomes| == i
      invariant Progress(s, users, dryRun, log, clock, outcomes, log')
    {
      var o := NotSent;
      if !dryRun {
        o := SendOne(s, users[i], log', clock(i));
      }
      ProgressStep(s, users, dryRun, log, clock, outcomes, log', o);
      if o.Sent? {
        log' := log' + [o.record];
      }
      outcomes := outcomes + [o];
      i := i + 1;
    }
  }

  /** What the send loop has established after handling `outcomes`. */
  predicate Progress(s: Sender, users: seq<Row>, dryRun: bool, log: seq<LogRecord>, clock: nat -> string,
                     outcomes: seq<Outcome>, log': seq<LogRecord>)
  {
    && |outcomes| <= |users|
    && (forall k :: 0 <= k < |outcomes| ==> "username" in users[k])
    && (dryRun ==> log' == log && forall k :: 0 <= k < |outcomes| ==> outcomes[k].NotSent?)
    && (!dryRun ==> forall k :: 0 <= k < |outcomes| ==> Handled(s, users[k], clock(k), outcomes[k]))
    && log' == log + Logged(outcomes)
  }

  /** Handling one more user keeps the loop's facts. */
  lemma ProgressStep(s: Sender, users: seq<Row>, dryRun: bool, log: seq<LogRecord>, clock: nat -> string,
                     outcomes: seq<Outcome>, log': seq<LogRecord>, o: Outcome)
    requires Progress(s, users, dryRun, log, clock, outcomes, log')
    requires |outcomes| < |users| && "username" in users[|outcomes|]
    requires dryRun ==> o == NotSent
    requires !dryRun ==> Handled(s, users[|outcomes|], clock(|outcomes|), o)
    ensures Progress(s, users, dryRun, log, clock, outcomes + [o], if o.Sent? then log' + [o.record] else log')
  {
    LoggedSnoc(outcomes, o);
    var next := outcomes + [o];
    assert forall k :: 0 <= k < |outcomes| ==> next[k] == outcomes[k];
  }

  /**
    After the loop, every new log record is the record of a listed user's
    send, with that user's name and category; every ready user handled in
    a real run has a record.
  */
  lemma {:induction false} LoggedUsersListed(s: Sender, users: seq<Row>, outcomes: seq<Outcome>, clock: nat -> string)
    requires |outcomes| <= |users|
    requires forall k :: 0 <= k < |outcomes| ==> Handled(s, users[k], clock(k), outcomes[k])
    ensures forall r :: r in Logged(outcomes) ==>
              exists k :: 0 <= k < |outcomes|
                && r.username == Get(users[k], "username") && r.category == Get(users[k], "category")
    ensures forall k :: 0 <= k < |outcomes| && Ready(s, users[k]) ==>
              exists r :: r in Logged(outcomes) && r.username == Get(users[k], "username")
  {
    LoggedFromOutcomes(outcomes);
    forall r | r in Logged(outcomes)
      ensures exists k :: 0 <= k < |outcomes|
                && r.username == Get(users[k], "username") && r.category == Get(users[k], "category")
    {
      var k :| 0 <= k < |outcomes| && outcomes[k].Sent? && outcomes[k].record == r;
      assert Handled(s, users[k], clock(k), outcomes[k]);
    }
    forall k | 0 <= k < |outcomes| && Ready(s, users[k])
      ensures exists r :: r in Logged(outcomes) && r.username == Get(users[k], "username")
    {
      assert Handled(s, users[k], clock(k), outcomes[k]);
      assert outcomes[k].record in Logged(outcomes);
    }
  }
}

=== FILE: records.dfy ===
/**
  The tabular data the core passes around: a pandas data frame read from a
  CSV file, seen as a list of column names and a list of records (one
  `map` from column name to cell per row, as `DataFrame.to_dict("records")`
  yields them).
*/
module Records {
  import opened Text

  /** A cell: text, an integer, or a missing value (pandas' NaN). */
  datatype Value = Str(s: string) | Num(n: int) | Missing

  type Row = map<string, Value>

  datatype Table = Table(columns: seq<string>, rows: seq<Row>)

  /** The cell of `r` under column `k`; an absent cell reads as missing. */
  function Get(r: Row, k: string): Value {
    if k in r then r[k] else Missing
  }

  /** Python's `str()` of a cell. */
  function Render(v: Value): (r: string)
    ensures v.Str? ==> r == v.s
    ensures v.Missing? ==> r == "nan"
    ensures v.Num? ==> |r| > 0 && (r[0] == '-' <==> v.n < 0)
    ensures v.Num? ==> forall i :: (if v.n < 0 then 1 else 0) <= i < |r| ==> '0' <= r[i] <= '9'
    ensures v.Num? ==> ParseDecimal(r[(if v.n < 0 then 1 else 0)..]) == (if v.n < 0 then -v.n else v.n)
    ensures v.Num? ==> |r| > (if v.n < 0 then 1 else 0) && (r[if v.n < 0 then 1 else 0] == '0' ==> v.n == 0)
  {
    match v
    case Str(s) => s
    case Num(n) =>
      var r := IntToText(n);
      DecimalRoundTrip(if n < 0 then -n else n);
      assert n < 0 ==> r[1..] == NatToDecimal(-n);
      r
    case Missing => "nan"
  }

  /** Every name in `cols` is a column of `t`. */
  predicate HasColumns(t: Table, cols: seq<string>) {
    forall c :: c in cols ==> c in t.columns
  }
}

=== FILE: text.dfy ===
/**
  The Python string operations the core relies on: `str.replace`,
  `str.split`/`str.join` (as its independent characterisation),
  `str.lower`, `str(int)` and the code-point ordering of `<` on strings.
*/
module Text {

  /** `p` occurs somewhere in `s`. */
  predicate Contains(s: string, p: string)
    decreases |s|
  {
    p <= s || (|s| > 0 && Contains(s[1..], p))
  }

  /**
    `s.replace(pat, rep)`: every non-overlapping occurrence of `pat`,
    scanning left to right, is replaced by `rep`.
  */
  function Replace(s: string, pat: string, rep: string): (r: string)
    requires |pat| > 0
    ensures !Contains(s, pat) ==> r == s
    ensures |rep| == |pat| ==> |r| == |s|
    decreases |s|
  {
    if pat <= s then rep + Replace(s[|pat|..], pat, rep)
    else if |s| == 0 then ""
    else
      assert s == [s[0]] + s[1..];
      [s[0]] + Replace(s[1..], pat, rep)
  }

  /** `s.split(pat)`: the pieces between the occurrences of `pat`. */
  function Split(s: string, pat: string): (pieces: seq<string>)
    requires |pat| > 0
    ensures |pieces| >= 1
    decreases |s|
  {
    if pat <= s then [""] + Split(s[|pat|..], pat)
    else if |s| == 0 then [""]
    else
      var rest := Split(s[1..], pat);
      [[s[0]] + rest[0]] + rest[1..]
  }

  /** `sep.join(pieces)`. */
  function Join(pieces: seq<string>, sep: string): string
    requires |pieces| >= 1
    decreases |pieces|
  {
    if |pieces| == 1 then pieces[0] else pieces[0] + sep + Join(pieces[1..], sep)
  }

  lemma JoinCons(head: string, tail: seq<string>, sep: string)
    requires |tail| >= 1
    ensures Join([head] + tail, sep) == head + sep + Join(tail, sep)
  {
    assert ([head] + tail)[1..] == tail;
  }

  /** Python's identity `s.replace(a, b) == b.join(s.split(a))`. */
  lemma {:induction false} ReplaceIsJoinOfSplit(s: string, pat: string, rep: string)
    requires |pat| > 0
    ensures Replace(s, pat, rep) == Join(Split(s, pat), rep)
    decreases |s|
  {
    if pat <= s {
      ReplaceIsJoinOfSplit(s[|pat|..], pat, rep);
      JoinCons("", Split(s[|pat|..], pat), rep);
    } else if |s| > 0 {
      ReplaceIsJoinOfSplit(s[1..], pat, rep);
      JoinConsChar(s[0], Split(s[1..], pat), rep);
    }
  }

  /** Joining after gluing a character onto the first piece. */
  lemma JoinConsChar(c: char, rest: seq<string>, sep: string)
    requires |rest| >= 1
    ensures Join([[c] + rest[0]] + rest[1..], sep) == [c] + Join(rest, sep)
  {
    if |rest| > 1 {
      JoinCons(rest[0], rest[1..], sep);
      assert [rest[0]] + rest[1..] == rest;
      JoinCons([c] + rest[0], rest[1..], sep);
    }
  }

  /** Replacing a pattern by itself gives the string back. */
  lemma {:induction false} ReplaceSelf(s: string, pat: string)
    requires |pat| > 0
    ensures Replace(s, pat, pat) == s
    decreases |s|
  {
    if pat <= s {
      ReplaceSelf(s[|pat|..], pat);
      assert s == s[..|pat|] + s[|pat|..];
    } else if |s| > 0 {
      ReplaceSelf(s[1..], pat);
      assert s == [s[0]] + s[1..];
    }
  }

  /** Splitting and joining back with the same separator is the identity. */
  lemma JoinSplitRoundTrip(s: string, pat: string)
    requires |pat| > 0
    ensures Join(Split(s, pat), pat) == s
  {
    ReplaceIsJoinOfSplit(s, pat, pat);
    ReplaceSelf(s, pat);
  }

  lemma {:induction false} SplitHeadIsPrefix(s: string, pat: string)
    requires |pat| > 0
    ensures Split(s, pat)[0] <= s
    decreases |s|
  {
    if !(pat <= s) && |s| > 0 {
      SplitHeadIsPrefix(s[1..], pat);
    }
  }

  /**
    `str.split` cuts at the leftmost occurrence first: no occurrence starts
    inside the first piece, and the piece is followed by the pattern unless
    it is the whole string.
  */
  lemma {:induction false} SplitHeadFirstOccurrence(s: string, pat: string)
    requires |pat| > 0
    ensures Split(s, pat)[0] <= s
    ensures forall j :: 0 <= j < |Split(s, pat)[0]| ==> !(pat <= s[j..])
    ensures |Split(s, pat)| == 1 ==> Split(s, pat)[0] == s
    ensures |Split(s, pat)| > 1 ==> pat <= s[|Split(s, pat)[0]|..]
    decreases |s|
  {
    SplitHeadIsPrefix(s, pat);
    if !(pat <= s) && |s| > 0 {
      var rest := Split(s[1..], pat);
      SplitHeadFirstOccurrence(s[1..], pat);
      var head := Split(s, pat)[0];
      assert head == [s[0]] + rest[0];
      forall j | 0 <= j < |head|
        ensures !(pat <= s[j..])
      {
        if j > 0 {
          assert s[j..] == s[1..][j - 1..];
        }
      }
      if |rest| > 1 {
        assert s[|head|..] == s[1..][|rest[0]|..];
      }
    }
  }

  lemma PrefixTrans(a: string, b: string, c: string)
    requires b <= c
    ensures a <= b ==> a <= c
  {
  }

  /** No piece produced by Split contains the separator. */
  lemma {:induction false} SplitPiecesFree(s: string, pat: string)
    requires |pat| > 0
    ensures forall i :: 0 <= i < |Split(s, pat)| ==> !Contains(Split(s, pat)[i], pat)
    decreases |s|
  {
    if pat <= s {
      SplitPiecesFree(s[|pat|..], pat);
      var rest := Split(s[|pat|..], pat);
      assert Split(s, pat) == [""] + rest;
      forall i | 0 <= i < |Split(s, pat)|
        ensures !Contains(Split(s, pat)[i], pat)
      {
        if i > 0 {
          assert Split(s, pat)[i] == rest[i - 1];
        }
      }
    } else if |s| > 0 {
      SplitPiecesFree(s[1..], pat);
      SplitHeadIsPrefix(s[1..], pat);
      var rest := Split(s[1..], pat);
      var head := [s[0]] + rest[0];
      assert head[1..] == rest[0];
      assert head <= s;
      PrefixTrans(pat, head, s);
      forall i | 0 <= i < |Split(s, pat)|
        ensures !Contains(Split(s, pat)[i], pat)
      {
        if i > 0 {
          assert Split(s, pat)[i] == rest[i];
        }
      }
    }
  }

  /** `str.lower` on one character; only ASCII letters are mapped. */
  function LowerChar(c: char): char {
    if 'A' <= c <= 'Z' then (c as int + 32) as char else c
  }

  /**
    `str.lower` restricted to ASCII: each capital letter becomes the small
    letter at the same place in the alphabet; every other character is kept.
  */
  function Lower(s: string): (r: string)
    ensures |r| == |s|
    ensures forall i :: 0 <= i < |s| ==> !('A' <= r[i] <= 'Z')
    ensures forall i :: 0 <= i < |s| && 'A' <= s[i] <= 'Z' ==>
              'a' <= r[i] <= 'z' && r[i] as int - 'a' as int == s[i] as int - 'A' as int
    ensures forall i :: 0 <= i < |s| && !('A' <= s[i] <= 'Z') ==> r[i] == s[i]
  {
    seq(|s|, i requires 0 <= i < |s| => LowerChar(s[i]))
  }

  /** Lower-casing twice is lower-casing once. */
  lemma LowerIdempotent(s: string)
    ensures Lower(Lower(s)) == Lower(s)
  {
    var once := Lower(s);
    assert forall i :: 0 <= i < |once| ==> Lower(once)[i] == once[i];
  }

  function DigitChar(d: nat): char
    requires d < 10
  {
    ('0' as int + d) as char
  }

  /** `str(n)` for a non-negative integer: decimal digits, no leading zero. */
  function NatToDecimal(n: nat): (r: string)
    ensures |r| >= 1
    ensures forall i :: 0 <= i < |r| ==> '0' <= r[i] <= '9'
    ensures r[0] == '0' ==> n == 0
    decreases n
  {
    if n < 10 then [DigitChar(n)] else NatToDecimal(n / 10) + [DigitChar(n % 10)]
  }

  /** `int(s)` on a string of decimal digits. */
  function ParseDecimal(s: string): nat
    requires forall i :: 0 <= i < |s| ==> '0' <= s[i] <= '9'
    decreases |s|
  {
    if |s| == 0 then 0
    else ParseDecimal(s[..|s| - 1]) * 10 + (s[|s| - 1] as int - '0' as int)
  }

  /** Reading back the decimal rendering gives the number. */
  lemma {:induction false} DecimalRoundTrip(n: nat)
    ensures ParseDecimal(NatToDecimal(n)) == n
    decreases n
  {
    if n >= 10 {
      DecimalRoundTrip(n / 10);
      var r := NatToDecimal(n);
      assert r[..|r| - 1] == NatToDecimal(n / 10);
    }
  }

  /** `str(i)` for any integer. */
  function IntToText(i: int): string {
    if i < 0 then "-" + NatToDecimal(-i) else NatToDecimal(i)
  }

  /** `a <= b` on Python strings: lexicographic by code point. */
  predicate LexLe(a: string, b: string)
    decreases |a|
  {
    |a| == 0 || (|b| > 0 && (a[0] < b[0] || (a[0] == b[0] && LexLe(a[1..], b[1..]))))
  }

  lemma {:induction false} LexLeTotal(a: string, b: string)
    ensures LexLe(a, b) || LexLe(b, a)
    decreases |a|
  {
    if |a| > 0 && |b| > 0 && a[0] == b[0] {
      LexLeTotal(a[1..], b[1..]);
    }
  }

  /** Two strings each at most the other are equal. */
  lemma {:induction false} LexLeAntisymmetric(a: string, b: string)
    requires LexLe(a, b) && LexLe(b, a)
    ensures a == b
    decreases |a|
  {
    if |a| > 0 {
      LexLeAntisymmetric(a[1..], b[1..]);
      assert a == [a[0]] + a[1..] && b == [b[0]] + b[1..];
    }
  }

  lemma {:induction false} LexLeTrans(a: string, b: string, c: string)
    requires LexLe(a, b) && LexLe(b, c)
    ensures LexLe(a, c)
    decreases |a|
  {
    if |a| > 0 && a[0] == b[0] && b[0] == c[0] {
      LexLeTrans(a[1..], b[1..], c[1..]);
    }
  }
}

=== FILE: user_loader.dfy ===
/**
  The worklist loader: reads the combined worklist, keeps the rows still
  waiting for a message, rewrites the status of a user's rows and counts
  rows per status. The CSV file is a parameter: `None` stands for a file
  that is missing or that pandas cannot read.
*/
module UserLoader {
  import opened Wrappers
  import opened Text
  import opened Records

  /** The columns the loader insists on before filtering. */
  const RequiredColumns: seq<string> := ["username", "category", "status"]

  /** `status.str.lower() == "pending"`; a non-text cell is never pending. */
  predicate IsPending(v: Value) {
    v.Str? && Lower(v.s) == "pending"
  }

  predicate PendingRow(r: Row) {
    IsPending(Get(r, "status"))
  }

  /** The rows of `rows` whose status is pending, in their original order. */
  function PendingRows(rows: seq<Row>): (r: seq<Row>)
    ensures |r| <= |rows|
    ensures forall x :: x in r ==> x in rows && PendingRow(x)
    ensures forall x :: x in rows && PendingRow(x) ==> x in r
    decreases |rows|
  {
    if |rows| == 0 then []
    else (if PendingRow(rows[0]) then [rows[0]] else []) + PendingRows(rows[1..])
  }

  /** `load_users`: the pending rows, or nothing when the file is unusable. */
  function LoadUsers(source: Option<Table>): (users: seq<Row>)
    ensures source.None? ==> users == []
    ensures source.Some? && !HasColumns(source.value, RequiredColumns) ==> users == []
    ensures forall x :: x in users ==> source.Some? && x in source.value.rows && PendingRow(x)
    ensures source.Some? && HasColumns(source.value, RequiredColumns) ==>
              forall x :: x in source.value.rows && PendingRow(x) ==> x in users
  {
    match source
    case None => []
    case Some(t) => if HasColumns(t, RequiredColumns) then PendingRows(t.rows) else []
  }

  /** Filtering commutes with concatenation: the relative order of rows is kept. */
  lemma {:induction false} PendingRowsAppend(a: seq<Row>, b: seq<Row>)
    ensures PendingRows(a + b) == PendingRows(a) + PendingRows(b)
    decreases |a|
  {
    if |a| > 0 {
      assert (a + b)[1..] == a[1..] + b;
      PendingRowsAppend(a[1..], b);
    } else {
      assert a + b == b;
    }
  }

  /** A row occurs in the result as often as in the input when pending, else never. */
  lemma {:induction false} PendingRowsMultiplicity(rows: seq<Row>, x: Row)
    ensures multiset(PendingRows(rows))[x] == if PendingRow(x) then multiset(rows)[x] else 0
    decreases |rows|
  {
    if |rows| > 0 {
      PendingRowsMultiplicity(rows[1..], x);
      assert rows == [rows[0]] + rows[1..];
    }
  }

  /** The row is one of the user's rows (`df["username"] == username`). */
  predicate Matches(r: Row, username: string) {
    Get(r, "username") == Str(username)
  }

  predicate AnyMatch(rows: seq<Row>, username: string) {
    exists i :: 0 <= i < |rows| && Matches(rows[i], username)
  }

  /**
    One row after `df.loc[mask, "status"] = newStatus`. When the table had
    no status column, pandas creates it and fills the other rows with NaN.
  */
  function Restatus(r: Row, username: string, newStatus: string, hadStatus: bool): Row {
    if Matches(r, username) then r["status" := Str(newStatus)]
    else if hadStatus then r
    else r["status" := Missing]
  }

  function SetStatus(rows: seq<Row>, username: string, newStatus: string, hadStatus: bool): (r: seq<Row>)
    ensures |r| == |rows|
    ensures forall i :: 0 <= i < |rows| ==> r[i] == Restatus(rows[i], username, newStatus, hadStatus)
    decreases |rows|
  {
    if |rows| == 0 then []
    else [Restatus(rows[0], username, newStatus, hadStatus)] + SetStatus(rows[1..], username, newStatus, hadStatus)
  }

  /**
    `update_user_status`: `Some` of the table written back when at least one
    row carries the username (the source then returns True); `None` when it
    returns False and leaves the file alone.
  */
  function UpdateUserStatus(source: Option<Table>, username: string, newStatus: string): (r: Option<Table>)
    ensures r.Some? <==> source.Some? && "username" in source.value.columns && AnyMatch(source.value.rows, username)
    ensures r.Some? ==> |r.value.rows| == |source.value.rows|
    ensures r.Some? ==>
              forall i :: 0 <= i < |source.value.rows| && Matches(source.value.rows[i], username) ==>
                r.value.rows[i] == source.value.rows[i]["status" := Str(newStatus)]
    ensures r.Some? && "status" in source.value.columns ==>
              && r.value.columns == source.value.columns
              && forall i :: 0 <= i < |source.value.rows| && !Matches(source.value.rows[i], username) ==>
                   r.value.rows[i] == source.value.rows[i]
    ensures r.Some? && "status" !in source.value.columns ==>
              && r.value.columns == source.value.columns + ["status"]
              && forall i :: 0 <= i < |source.value.rows| && !Matches(source.value.rows[i], username) ==>
                   r.value.rows[i] == source.value.rows[i]["status" := Missing]
    ensures r.Some? ==>
              forall i, k :: 0 <= i < |source.value.rows| && k != "status" ==>
                Get(r.value.rows[i], k) == Get(source.value.rows[i], k)
  {
    match source
    case None => None
    case Some(t) =>
      if "username" !in t.columns || !AnyMatch(t.rows, username) then None
      else
        var hadStatus := "status" in t.columns;
        Some(Table(if hadStatus then t.columns else t.columns + ["status"],
                   SetStatus(t.rows, username, newStatus, hadStatus)))
  }

  /** Marking a user twice with the same status is the same as marking once. */
  lemma UpdateIdempotent(t: Table, username: string, newStatus: string)
    requires UpdateUserStatus(Some(t), username, newStatus).Some?
    ensures var t' := UpdateUserStatus(Some(t), username, newStatus).value;
            UpdateUserStatus(Some(t'), username, newStatus) == Some(t')
  {
    var hadStatus := "status" in t.columns;
    var rows' := SetStatus(t.rows, username, newStatus, hadStatus);
    var i :| 0 <= i < |t.rows| && Matches(t.rows[i], username);
    assert Matches(rows'[i], username);
    SetStatusTwice(t.rows, username, newStatus, hadStatus);
  }

  lemma {:induction false} SetStatusTwice(rows: seq<Row>, username: string, newStatus: string, hadStatus: bool)
    ensures SetStatus(SetStatus(rows, username, newStatus, hadStatus), username, newStatus, true)
            == SetStatus(rows, username, newStatus, hadStatus)
    decreases |rows|
  {
    if |rows| > 0 {
      var once := SetStatus(rows, username, newStatus, hadStatus);
      assert once[1..] == SetStatus(rows[1..], username, newStatus, hadStatus);
      SetStatusTwice(rows[1..], username, newStatus, hadStatus);
      var r := rows[0];
      assert Get(once[0], "username") == Get(r, "username");
      if Matches(r, username) {
        assert once[0]["status" := Str(newStatus)] == once[0];
      }
    }
  }

  /** The rows of `rows` that do not belong to `username`, in order. */
  function WithoutUser(rows: seq<Row>, username: string): (r: seq<Row>)
    decreases |rows|
  {
    if |rows| == 0 then []
    else (if Matches(rows[0], username) then [] else [rows[0]]) + WithoutUser(rows[1..], username)
  }

  lemma {:induction false} PendingAfterSetStatus(rows: seq<Row>, username: string, newStatus: string)
    requires !IsPending(Str(newStatus))
    ensures PendingRows(SetStatus(rows, username, newStatus, true)) == WithoutUser(PendingRows(rows), username)
    decreases |rows|
  {
    if |rows| > 0 {
      PendingAfterSetStatus(rows[1..], username, newStatus);
      assert SetStatus(rows, username, newStatus, true)[1..] == SetStatus(rows[1..], username, newStatus, true);
      var head := if PendingRow(rows[0]) then [rows[0]] else [];
      assert PendingRows(rows) == head + PendingRows(rows[1..]);
      WithoutUserAppend(head, PendingRows(rows[1..]), username);
    }
  }

  lemma {:induction false} WithoutUserAppend(a: seq<Row>, b: seq<Row>, username: string)
    ensures WithoutUser(a + b, username) == WithoutUser(a, username) + WithoutUser(b, username)
    decreases |a|
  {
    if |a| > 0 {
      assert (a + b)[1..] == a[1..] + b;
      WithoutUserAppend(a[1..], b, username);
    } else {
      assert a + b == b;
    }
  }

  /**
    Marking a user with a non-pending status removes exactly that user's
    rows from the next load, and leaves every other pending row in place.
  */
  lemma UpdateThenLoad(t: Table, username: string, newStatus: string)
    requires HasColumns(t, RequiredColumns)
    requires !IsPending(Str(newStatus))
    requires UpdateUserStatus(Some(t), username, newStatus).Some?
    ensures LoadUsers(UpdateUserStatus(Some(t), username, newStatus))
            == WithoutUser(LoadUsers(Some(t)), username)
  {
    assert "status" in t.columns;
    PendingAfterSetStatus(t.rows, username, newStatus);
  }

  /** The status values present, NaN excluded (what `value_counts` reports). */
  function StatusValues(rows: seq<Row>): set<Value> {
    set i | 0 <= i < |rows| && Get(rows[i], "status") != Missing :: Get(rows[i], "status")
  }

  /** Number of rows whose status cell is `v`. */
  function CountStatus(rows: seq<Row>, v: Value): nat
    decreases |rows|
  {
    if |rows| == 0 then 0
    else (if Get(rows[0], "status") == v then 1 else 0) + CountStatus(rows[1..], v)
  }

  lemma {:induction false} CountStatusPositive(rows: seq<Row>, i: nat)
    requires i < |rows|
    ensures CountStatus(rows, Get(rows[i], "status")) >= 1
    decreases i
  {
    if i > 0 {
      CountStatusPositive(rows[1..], i - 1);
    }
  }

  /** `get_user_count`: each status value present mapped to its number of rows. */
  function GetUserCount(source: Option<Table>): (counts: map<Value, nat>)
    ensures source.None? || "status" !in source.value.columns ==> counts == map[]
    ensures source.Some? && "status" in source.value.columns ==>
              counts.Keys == StatusValues(source.value.rows)
    ensures Missing !in counts
    ensures forall v :: v in counts ==>
              source.Some? && counts[v] == CountStatus(source.value.rows, v) && counts[v] >= 1
  {
    match source
    case None => map[]
    case Some(t) =>
      if "status" !in t.columns then map[]
      else
        var keys := StatusValues(t.rows);
        assert forall v :: v in keys ==> CountStatus(t.rows, v) >= 1 by {
          forall v | v in keys
            ensures CountStatus(t.rows, v) >= 1
          {
            var i :| 0 <= i < |t.rows| && Get(t.rows[i], "status") == v;
            CountStatusPositive(t.rows, i);
          }
        }
        map v | v in keys :: CountStatus(t.rows, v)
  }

  /** Every pending status is spelled exactly "pending". */
  predicate CanonicalPending(rows: seq<Row>) {
    forall i :: 0 <= i < |rows| && PendingRow(rows[i]) ==> Get(rows[i], "status") == Str("pending")
  }

  lemma {:induction false} PendingCountIsStatusCount(rows: seq<Row>)
    requires CanonicalPending(rows)
    ensures |PendingRows(rows)| == CountStatus(rows, Str("pending"))
    decreases |rows|
  {
    if |rows| > 0 {
      assert CanonicalPending(rows[1..]) by {
        forall i | 0 <= i < |rows[1..]| && PendingRow(rows[1..][i])
          ensures Get(rows[1..][i], "status") == Str("pending")
        {
          assert rows[1..][i] == rows[i + 1];
        }
      }
      PendingCountIsStatusCount(rows[1..]);
      assert PendingRow(rows[0]) ==> Get(rows[0], "status") == Str("pending");
      assert Get(rows[0], "status") == Str("pending") ==> PendingRow(rows[0]) by {
        assert Lower("pending") == "pending";
      }
    }
  }

  /**
    When statuses are written in canonical lower case, the number of users
    `load_users` returns is the "pending" entry of `get_user_count`.
  */
  lemma LoadCountMatchesStatusCount(t: Table)
    requires HasColumns(t, RequiredColumns)
    requires CanonicalPending(t.rows)
    ensures var counts := GetUserCount(Some(t));
            |LoadUsers(Some(t))| == if Str("pending") in counts then counts[Str("pending")] else 0
  {
    assert "status" in t.columns;
    PendingCountIsStatusCount(t.rows);
    var counts := GetUserCount(Some(t));
    if Str("pending") !in counts {
      CountStatusZero(t.rows, Str("pending"));
    }
  }

  lemma {:induction false} CountStatusZero(rows: seq<Row>, v: Value)
    requires v !in StatusValues(rows)
    requires v != Missing
    ensures CountStatus(rows, v) == 0
    decreases |rows|
  {
    if |rows| > 0 {
      StatusValuesTail(rows);
      CountStatusZero(rows[1..], v);
      assert Get(rows[0], "status") != Missing ==> Get(rows[0], "status") in StatusValues(rows);
    }
  }

  lemma StatusValuesTail(rows: seq<Row>)
    requires |rows| > 0
    ensures StatusValues(rows[1..]) <= StatusValues(rows)
  {
    forall v | v in StatusValues(rows[1..])
      ensures v in StatusValues(rows)
    {
      var i :| 0 <= i < |rows[1..]| && Get(rows[1..][i], "status") != Missing && Get(rows[1..][i], "status") == v;
      assert rows[1..][i] == rows[i + 1];
    }
  }
}

=== FILE: wrappers.dfy ===
/** The Option datatype used for the source's "value or None" results. */
module Wrappers {

  datatype Option<+T> = None | Some(value: T) {

    /** Returns the value held in Some, or `default` when None. */
    function GetOr(default: T): T {
      match this
      case Some(v) => v
      case None => default
    }
  }
}
